=== FILE: README.md ===
# multiPhotoScanner core in Dafny

multiPhotoScanner scans a sheet holding several photo prints. It pulls each
page from the scanner in chunks. It converts raw RGB pages into an image and
cuts that image into one picture per print. This project models the two pieces
of logic that do the work and proves properties of them:

- `crop.py` converts a print's physical size and the scan resolution into
  pixels. It then lays out three slots on the scanned sheet and crops each slot
  from the sheet. A slot is turned a quarter when it asks for it and the prints
  are in landscape orientation.
- `Scanner.py` holds the scan session loop, the raw-RGB conversion
  (`raw_to_img`) and the fixed 600 dpi three-way split.

Modules:

- `Results` (`results.dfy`): `Option` and `Result`. `Result` carries the
  exceptions the Python code raises.
- `Raster` (`raster.dfy`): pixels, images stored as rows of pixels, integer
  crop boxes, `Crop` and `Rotate90`. These are the two image operations the
  splitters apply (crop.py:26-28, Scanner.py:152-158); the decoding that
  `frombuffer` does is in `RawRgb`.
- `PhotoCrop` (`photo_crop.dfy`): `length_to_pixels` and `split_images` of
  `crop.py`. Lengths are exact `real`s.
- `RawRgb` (`raw_rgb.dfy`): `raw_to_img` and the row-major 24-bit RGB byte
  layout it reads, with the matching encoder used to state round trips.
- `Scanner` (`scanner.dfy`): `Scanner.scan` as a pure function. It takes a
  started (or failed) device session and an optional file-name template. It
  returns the trace of observable effects (progress reports, JPEG saves, raw
  writes, the session release) and the outcome (pages scanned, or the error
  raised). The page loop is stated over the sequence of its turns, one
  `Run` per page it can reach (`PageTurns`), so the loop's properties hold
  whatever a page's turn does. The module also holds the fixed split of
  `Scanner.py`.

The device is an input value. A `Session` is the sequence of pages the feeder
delivers. Each `Page` carries the parameters the device reports for it, the
chunks successive reads return, and whether the read after the last chunk
raises. `None` in place of a session means `scan_start` raised. The template
`output_file.format` is an opaque function from page number to name.

## Model

| member | source | states |
|---|---|---|
| PhotoCrop.LengthToPixels | crop.py:33-41 | a value exists exactly for unit "inch" or "cm"; each pixel length is the print length in inches (cm times 0.393701) times the dpi times 0.98 (width) or 0.99 (height) |
| PhotoCrop.CmScalesInchResult | crop.py:36-41 | the "cm" result is the "inch" result for the same numbers, each component multiplied by 0.393701 |
| PhotoCrop.CmAgreesWithInch | crop.py:36-41 | a print measured in cm and the same print measured in inches (cm / 2.54) give pixel lengths within one part per million of each other |
| PhotoCrop.LengthToPixelsMonotone | crop.py:36-37 | for a positive print size both pixel lengths grow strictly with the resolution |
| PhotoCrop.RoundCoordinate | crop.py:26 | the image library's coordinate rounding: the nearest integer, ties to the even one |
| PhotoCrop.RoundCoordinateMonotone | crop.py:26 | rounding keeps coordinates in order, so an accepted box is still ordered after rounding |
| PhotoCrop.Layout | crop.py:20-23 | only a count of 3 has a layout: two turned slots h wide and w tall in the top-left and top-right corners, one unturned slot w wide and h tall in the bottom-left corner; other counts have none |
| PhotoCrop.LayoutOrdered | crop.py:22-26 | every slot box has left <= right and top <= bottom exactly when both print extents are non-negative |
| PhotoCrop.LayoutInside | crop.py:18-22 | the three slots lie on the sheet exactly when a print fits along both sides of the sheet in both orientations |
| PhotoCrop.LayoutDisjoint | crop.py:22 | the two top slots do not overlap when 2h fits across the sheet; the bottom slot clears them when w + h fits down the sheet |
| PhotoCrop.PixelBox | crop.py:26 | the integer box cropped for a slot is ordered, and each of its edges is the slot's edge to within half a pixel |
| PhotoCrop.SlotCropSize | crop.py:26 | a slot's crop is the slot's real width and height to within one pixel each |
| PhotoCrop.SlotImage | crop.py:26-28 | a slot's photo has the rounded box's size, with width and height swapped exactly when the slot is turned and the orientation is "landscape" |
| PhotoCrop.SlotImageShape | crop.py:26-29 | a slot's photo is its crop, turned (width and height swapped, pixels moved a quarter turn) only when its flag is set and the orientation is "landscape" |
| PhotoCrop.SplitImages | crop.py:4-30 | an unknown unit raises even when the count is not 3; the result has max(count, 0) entries; for a count other than 3 all are None and nothing is cropped; for 3 it succeeds exactly when both pixel extents are non-negative, a known unit that fails does so because a box is inverted, and entry i is slot i cropped then conditionally turned |
| PhotoCrop.SplitSixByFourLandscape | crop.py:17-29 | 6 x 4 inch prints at 600 dpi on a 4771 x 5921 sheet in landscape: every slot lies on the sheet and all three photos are 3528 x 2376 |
| PhotoCrop.SplitSixByFourPortrait | crop.py:17-29 | the same sheet in portrait: the two top photos are 2376 x 3528 (not turned), the bottom one 3528 x 2376 |
| Raster.Crop | crop.py:26 | the crop is (right - left) x (bottom - top) and each pixel is the source pixel at the shifted position, or blank off the source |
| Raster.CropInside | Scanner.py:152-158 | a box on the raster copies source pixels only |
| Raster.CropWhole | crop.py:26 | cropping to the whole raster returns it unchanged |
| Raster.Rotate90 | crop.py:28 | a counter-clockwise quarter turn with the canvas expanded: width and height swap, the top-right pixel becomes the top-left |
| Raster.RotateTwice | crop.py:28 | two quarter turns turn the raster upside down |
| Raster.RotateFour | crop.py:28 | four quarter turns return the raster unchanged |
| RawRgb.RawToImg | Scanner.py:140-148 | any format other than RAW_RGB_24 fails the assertion; a zero width divides by zero; otherwise the image has the device's width and height len(bytes) div (3 * width) |
| RawRgb.Decode | Scanner.py:143-148 | the decoded raster holds the whole rows the stream contains, at the given width |
| RawRgb.Encode | Scanner.py:148 | a raster is 3 * width * height bytes long in this layout |
| RawRgb.RawToImgKeepsWholeRows | Scanner.py:143-146 | the image re-encodes to exactly the stream's first 3 * width * height bytes; fewer than one row's worth of trailing bytes is dropped |
| RawRgb.RawToImgPixel | Scanner.py:148 | pixel (x, y) is made of stream bytes 3(yw + x), +1 and +2, as red, green, blue |
| RawRgb.RawToImgOfEncode | Scanner.py:140-148 | encoding a raster and converting it back at its own width gives the same raster |
| Scanner.ReadChunks | Scanner.py:101-116 | one progress report per chunk, all for this page; the page's bytes are the chunks concatenated in order; a chunk on a page of expected size 0 raises a division by zero; a failing read raises |
| Scanner.ConcatAppend | Scanner.py:116 | joining the chunks of two stretches of reads is joining each stretch and appending the results |
| Scanner.Limit | Scanner.py:94 | the loop can reach at most 20 pages and at most the pages the feeder holds, and it reaches one of the two bounds |
| Scanner.ReadChunksProgress | Scanner.py:113-114 | the report after chunk i is int(bytes read so far * 100 / expected size) |
| Scanner.ProgressNonDecreasing | Scanner.py:113-115 | within a page the reported progress never decreases |
| Scanner.ReadsBoundPageSize | Scanner.py:109-116 | chunks of at most 128 KiB each join to at most 128 KiB per chunk |
| Scanner.PageBytesBound | Scanner.py:108-116 | a page whose reads each return at most the 128 KiB requested, and that announces a non-zero size, holds at most 128 KiB per progress report made while reading it |
| Scanner.FixedSplit | Scanner.py:151-160 | for any raster: the first photo is box (0, 0, 2377, 3529) turned counter-clockwise (pixel (x, y) is source (2376 - y, x)), 3529 x 2377; the second is box (2377, 0, 4771, 3529) turned (source (4770 - y, x)), 3529 x 2394; the third is box (0, 3529, 3546, 5921) as cropped (source (x, 3529 + y)), 3546 x 2392; black where a box leaves the raster |
| Scanner.FixedSplitSaves | Scanner.py:152-159 | three JPEG saves for the page, named splitTest1.jpg, splitTest2.jpg and splitTest3.jpg in that order, carrying the split's parts in the same order |
| Scanner.FixedBoxesTile | Scanner.py:152-158 | the two top boxes meet edge to edge at x = 2377 and span the 4771-pixel sheet width; the bottom box starts at their bottom edge and ends at the sheet's; all three lie on a 4771 x 5921 sheet |
| Scanner.PageRun | Scanner.py:95-131 | every effect of a page run belongs to that page and none releases the session; a read that raises (a failing read, or a chunk on a page of expected size 0) ends the turn with that error after the page's progress reports; without a template a page that reads through succeeds with only progress reports |
| Scanner.PageRunWrites | Scanner.py:104-130 | with a template the page is written under the template's name for its number; a RAW_RGB_24 page is converted with that page's own width, saved as JPEG and split; any other format is written as the bytes read |
| Scanner.ScanPages | Scanner.py:93-131 | a loop that raises nothing ends at min(pages, 20) |
| Scanner.Loop | Scanner.py:93-131 | the loop over the turns it can reach ends, when nothing raises, after the last of them |
| Scanner.PageTurns | Scanner.py:94-131 | there is one turn per page the loop can reach, and turn k runs page k under its own number |
| Scanner.LoopRunsOk | Scanner.py:93-131 | a loop that raises nothing takes every turn up to the last, in order, and its trace is exactly those turns' effects |
| Scanner.LoopRunsFail | Scanner.py:93-131 | a loop that raises stops at the first turn that raises: the turns before it ran through, the loop raises that turn's error, and the trace ends with that turn's effects |
| Scanner.LoopPages | Scanner.py:93-131 | when each turn acts on its own page only, the loop from turn n acts on pages n to the last only, in non-decreasing order, and never releases the session |
| Scanner.ScanPagesPages | Scanner.py:93-94 | every effect of the loop from page n belongs to a page between n and the cap, and page numbers never decrease |
| Scanner.LoopOnlyProgress | Scanner.py:104-118 | when no turn does more than report progress, neither does the loop |
| Scanner.Scan | Scanner.py:88-137 | a session that fails to start produces nothing; a started one always ends with the release; a scan without error scans min(pages, 20) pages |
| Scanner.ScanReleasesOnce | Scanner.py:91-137 | a started session is released exactly once, as the last effect, on every exit path; one that failed to start is never released |
| Scanner.ScanPageCap | Scanner.py:93-131 | nothing before the release concerns a page at or beyond min(pages, 20), and pages appear in order |
| Scanner.ScanEmptyFeeder | Scanner.py:133-137 | an empty feeder scans zero pages without error and still releases the session |
| Scanner.ScanStopsOnReadFault | Scanner.py:92-137 | a read that raises on the first page ends the whole scan with ReadFailed; the trace is that page's progress reports then the release, with nothing of later pages |
| Scanner.ScanWithoutOutputOnlyReports | Scanner.py:104-118 | without a template the trace holds only progress reports and the release: nothing is converted, saved or split |

## Left out

- Device and source discovery, the logger, `set_options` and the resolution option (Scanner.py:12-86). These are calls into the Libinsane bindings. The started session is an input value instead.
- Failures of `get_scan_parameters`, `end_of_feed`, `end_of_page` and `output_file.format`. Of the device calls, only a failing read and a failed session start are modelled. The program's own errors that are modelled are the division by a zero expected size and the failed conversion.
- Failures of saves and writes. In the model a save or a write always succeeds. In the program the image library's JPEG save raises for an image with no rows, which a RAW_RGB_24 page shorter than one row produces (Scanner.py:145, 122). Opening or writing the output file can raise too (Scanner.py:129-130). Either would end the loop and go straight to the release.
- JPEG encoding and the writing of files. Each save or write is an effect in the trace, carrying the image or bytes that would be written.
- All `print` logging, including the "No page in feeder ?" message. An empty feeder shows up as the outcome `Success(0)`.
- The Qt window and the scan thread with its `shouldRun` flag (multiPhotoScanner/multiPhotoScanner.py). This is UI and concurrency, and it calls a `Scanner` interface that `Scanner.py` does not define. `multiPhotoScanner.py` and `setup.py` are not part of this model.
- The `__main__` blocks (crop.py:44-46, Scanner.py:162-167). The first calls `split_images` with the wrong number of arguments.
- Python floats. Lengths and coefficients are exact rationals. Progress `int(r/total*100)` is modelled as `(r * 100) div total`. The height `int(len/3/width)` is modelled as `len div (3 * width)`. Float rounding can make either differ by one near an integer boundary.
- Image library behaviour the source relies on but does not show. These behaviours are written out explicitly and not derived from anything:
  - `frombuffer` reads the bytes as row-major interleaved RGB;
  - `crop` rejects a box with right < left or bottom < top;
  - `crop` rounds each coordinate half to even (`RoundCoordinate`);
  - `crop` fills pixels outside the source with black;
  - `rotate(90, expand=True)` is a counter-clockwise quarter turn.
- A crop box outside the image does not raise an error in the code: it is padded. Reported progress is not clamped to 0..100, so it exceeds 100 when a page delivers more bytes than it announced. For a slot count other than 3, the result is `count` entries of `None`, not an empty list. The model follows the code on each of these points.
- PhotoCrop.LengthToPixelsMonotone: stated for positive print sizes only. For a negative size the lengths decrease with resolution.
- The 128 KiB request size of each read (Scanner.py:110). A page lists the chunks its reads return, of any length; the bound enters only through `ReadsWithinRequest`, which `PageBytesBound` assumes.
- PhotoCrop.CmAgreesWithInch: stated for non-negative print sizes only. The one-part-per-million bound is relative to the inch result.

=== FILE: photo_crop.dfy ===
/** The multi-photo splitter of crop.py: physical print size to pixels, the
    three-slot layout on the scanned sheet, and the per-slot crop and turn. */
module PhotoCrop {
  import opened Results
  import opened Raster

  /** Empirical correction of the scanner's feed along the print's width. */
  const WidthAccuracy: real := 0.98
  /** Empirical correction of the scanner's feed along the print's height. */
  const HeightAccuracy: real := 0.99
  /** Inches per centimetre: the inch-per-centimetre factor rounded to six places. */
  const InchPerCm: real := 0.393701

  /** A print size `(width, height, unit)`; the unit is a free string and only
      "inch" and "cm" are understood. */
  datatype PictureFormat = PictureFormat(width: real, height: real, unit: string)

  /** A known unit's length expressed in inches. */
  function Inches(length: real, unit: string): real
    requires unit == "inch" || unit == "cm"
  {
    if unit == "inch" then length else length * InchPerCm
  }

  /** Pixel extent `(w, h)` of a print at `resolution` dots per inch, or None
      for an unknown unit. */
  function LengthToPixels(resolution: int, f: PictureFormat): (r: Option<(real, real)>)
    ensures r.Some? <==> f.unit == "inch" || f.unit == "cm"
    ensures r.Some? ==>
              && r.value.0 == Inches(f.width, f.unit) * resolution as real * WidthAccuracy
              && r.value.1 == Inches(f.height, f.unit) * resolution as real * HeightAccuracy
  {
    var width := f.width * resolution as real * WidthAccuracy;
    var height := f.height * resolution as real * HeightAccuracy;
    if f.unit == "inch" then Some((width, height))
    else if f.unit == "cm" then Some((width * InchPerCm, height * InchPerCm))
    else None
  }

  /** The centimetre result is the inch formula applied to the same numbers,
      each component then scaled by the inch-per-centimetre factor. */
  lemma CmScalesInchResult(resolution: int, width: real, height: real)
    ensures LengthToPixels(resolution, PictureFormat(width, height, "cm")).Some?
    ensures LengthToPixels(resolution, PictureFormat(width, height, "inch")).Some?
    ensures LengthToPixels(resolution, PictureFormat(width, height, "cm")).value.0
            == LengthToPixels(resolution, PictureFormat(width, height, "inch")).value.0 * InchPerCm
    ensures LengthToPixels(resolution, PictureFormat(width, height, "cm")).value.1
            == LengthToPixels(resolution, PictureFormat(width, height, "inch")).value.1 * InchPerCm
  {
  }

  /** A print measured in centimetres and the same print measured in inches
      (centimetres / 2.54) land within one part per million of each other. */
  lemma CmAgreesWithInch(resolution: nat, widthCm: real, heightCm: real)
    requires widthCm >= 0.0 && heightCm >= 0.0
    ensures
      var cm := LengthToPixels(resolution, PictureFormat(widthCm, heightCm, "cm")).value;
      var inch := LengthToPixels(resolution, PictureFormat(widthCm / 2.54, heightCm / 2.54, "inch")).value;
      && inch.0 <= cm.0 <= inch.0 + inch.0 / 1000000.0
      && inch.1 <= cm.1 <= inch.1 + inch.1 / 1000000.0
  {
    var res := resolution as real;
    var inchW := widthCm / 2.54 * res * WidthAccuracy;
    var inchH := heightCm / 2.54 * res * HeightAccuracy;
    assert widthCm * res * WidthAccuracy == inchW * 2.54;
    assert heightCm * res * HeightAccuracy == inchH * 2.54;
    assert inchW >= 0.0 && inchH >= 0.0;
  }

  /** For a positive print size, both pixel lengths grow strictly with the
      resolution. */
  lemma LengthToPixelsMonotone(low: int, high: int, f: PictureFormat)
    requires f.unit == "inch" || f.unit == "cm"
    requires f.width > 0.0 && f.height > 0.0 && low < high
    ensures LengthToPixels(low, f).value.0 < LengthToPixels(high, f).value.0
    ensures LengthToPixels(low, f).value.1 < LengthToPixels(high, f).value.1
  {
    var inW := Inches(f.width, f.unit);
    var inH := Inches(f.height, f.unit);
    assert inW > 0.0 && inH > 0.0;
    var gap := (high - low) as real;
    assert gap > 0.0;
    assert inW * high as real * WidthAccuracy - inW * low as real * WidthAccuracy == inW * gap * WidthAccuracy;
    assert inH * high as real * HeightAccuracy - inH * low as real * HeightAccuracy == inH * gap * HeightAccuracy;
    assert inW * gap > 0.0 && inH * gap > 0.0;
  }

  /** The image library's conversion of a crop coordinate to a pixel index:
      nearest integer, ties to the even one. */
  function RoundCoordinate(x: real): (n: int)
    ensures n as real - 0.5 <= x <= n as real + 0.5
    ensures x == n as real - 0.5 || x == n as real + 0.5 ==> n % 2 == 0
  {
    var f := x.Floor;
    var d := x - f as real;
    if d < 0.5 then f
    else if d > 0.5 then f + 1
    else if f % 2 == 0 then f
    else f + 1
  }

  /** Rounding keeps the order of coordinates, so an ordered box stays ordered. */
  lemma RoundCoordinateMonotone(x: real, y: real)
    requires x <= y
    ensures RoundCoordinate(x) <= RoundCoordinate(y)
  {
    if x < y {
      assert RoundCoordinate(x) as real - 0.5 < RoundCoordinate(y) as real + 0.5;
    }
  }

  /** Whole-pixel coordinates pass through rounding unchanged. */
  lemma RoundCoordinateOfInteger(k: int)
    ensures RoundCoordinate(k as real) == k
  {
  }

  /** One slot of the layout: a crop box on the scanned sheet, in possibly
      fractional pixels, and whether the slot is turned in landscape mode. */
  datatype Slot = Slot(left: real, top: real, right: real, bottom: real, rotate: bool) {
    /** The image library refuses a box whose right edge is left of its left
        edge or whose bottom edge is above its top edge. */
    predicate Ordered() {
      left <= right && top <= bottom
    }

    predicate Inside(scanWidth: int, scanHeight: int) {
      0.0 <= left && right <= scanWidth as real && 0.0 <= top && bottom <= scanHeight as real
    }
  }

  /** The slot layout for `count` prints of `w` x `h` pixels on a
      `scanWidth` x `scanHeight` sheet: only three prints have a layout. */
  function Layout(count: int, w: real, h: real, scanWidth: int, scanHeight: int): (slots: seq<Slot>)
    ensures count != 3 ==> slots == []
    ensures count == 3 ==> |slots| == 3
    // two turned slots along the top edge, one in each corner, each h wide and w tall
    ensures count == 3 ==>
              && slots[0].rotate && slots[1].rotate
              && slots[0].top == 0.0 && slots[1].top == 0.0
              && slots[0].left == 0.0 && slots[1].right == scanWidth as real
              && slots[0].right - slots[0].left == h && slots[1].right - slots[1].left == h
              && slots[0].bottom - slots[0].top == w && slots[1].bottom - slots[1].top == w
    // one unturned slot in the bottom-left corner, w wide and h tall
    ensures count == 3 ==>
              && !slots[2].rotate
              && slots[2].left == 0.0 && slots[2].bottom == scanHeight as real
              && slots[2].right - slots[2].left == w && slots[2].bottom - slots[2].top == h
  {
    if count == 3 then
      [ Slot(0.0, 0.0, h, w, true),
        Slot(scanWidth as real - h, 0.0, scanWidth as real, w, true),
        Slot(0.0, scanHeight as real - h, w, scanHeight as real, false) ]
    else
      []
  }

  /** Every box of the three-slot layout is ordered exactly when both print
      extents are non-negative. */
  lemma LayoutOrdered(w: real, h: real, scanWidth: int, scanHeight: int)
    ensures (forall i :: 0 <= i < 3 ==> Layout(3, w, h, scanWidth, scanHeight)[i].Ordered())
            <==> w >= 0.0 && h >= 0.0
  {
    var slots := Layout(3, w, h, scanWidth, scanHeight);
    if w < 0.0 || h < 0.0 {
      assert !slots[0].Ordered();
    }
  }

  /** The three slots lie on the sheet exactly when a print fits along both
      sides of it in both orientations. */
  lemma LayoutInside(w: real, h: real, scanWidth: int, scanHeight: int)
    ensures (forall i :: 0 <= i < 3 ==> Layout(3, w, h, scanWidth, scanHeight)[i].Inside(scanWidth, scanHeight))
            <==> h <= scanWidth as real && w <= scanWidth as real && h <= scanHeight as real && w <= scanHeight as real
  {
    var slots := Layout(3, w, h, scanWidth, scanHeight);
    if !(h <= scanWidth as real && w <= scanWidth as real && h <= scanHeight as real && w <= scanHeight as real) {
      if h > scanWidth as real {
        assert !slots[1].Inside(scanWidth, scanHeight);
      } else if w > scanWidth as real {
        assert !slots[2].Inside(scanWidth, scanHeight);
      } else if h > scanHeight as real {
        assert !slots[2].Inside(scanWidth, scanHeight);
      } else {
        assert !slots[0].Inside(scanWidth, scanHeight);
      }
    }
  }

  predicate Overlap(a: Slot, b: Slot) {
    a.left < b.right && b.left < a.right && a.top < b.bottom && b.top < a.bottom
  }

  /** The two top slots do not overlap when two print heights fit across the
      sheet, and the bottom slot clears them when a print's width and height
      together fit down the sheet. */
  lemma LayoutDisjoint(w: real, h: real, scanWidth: int, scanHeight: int)
    requires w >= 0.0 && h >= 0.0
    requires h + h <= scanWidth as real && w + h <= scanHeight as real
    ensures !Overlap(Layout(3, w, h, scanWidth, scanHeight)[0], Layout(3, w, h, scanWidth, scanHeight)[1])
    ensures !Overlap(Layout(3, w, h, scanWidth, scanHeight)[0], Layout(3, w, h, scanWidth, scanHeight)[2])
    ensures !Overlap(Layout(3, w, h, scanWidth, scanHeight)[1], Layout(3, w, h, scanWidth, scanHeight)[2])
  {
  }

  /** The integer box the image library crops for a slot: each edge is the
      slot's edge rounded to the nearest whole pixel. */
  function PixelBox(s: Slot): (b: Box)
    requires s.Ordered()
    ensures b.Ordered()
    ensures -0.5 <= b.left as real - s.left <= 0.5 && -0.5 <= b.top as real - s.top <= 0.5
    ensures -0.5 <= b.right as real - s.right <= 0.5 && -0.5 <= b.bottom as real - s.bottom <= 0.5
  {
    RoundCoordinateMonotone(s.left, s.right);
    RoundCoordinateMonotone(s.top, s.bottom);
    Box(RoundCoordinate(s.left), RoundCoordinate(s.top), RoundCoordinate(s.right), RoundCoordinate(s.bottom))
  }

  /** One output photo: the slot cropped from the sheet, then turned a
      quarter only when the slot asks for it and the prints are landscape. */
  function SlotImage(source: Image, s: Slot, orientation: string): (img: Image)
    requires source.Valid() && s.Ordered()
    ensures img.Valid()
    ensures var b := PixelBox(s);
            if s.rotate && orientation == "landscape"
            then img.width == b.bottom - b.top && img.height == b.right - b.left
            else img.width == b.right - b.left && img.height == b.bottom - b.top
  {
    var c := Crop(source, PixelBox(s));
    if s.rotate && orientation == "landscape" then Rotate90(c) else c
  }

  /** A slot's photo is its crop, or the crop turned with width and height
      swapped; which one depends on the slot's flag and the orientation only. */
  lemma SlotImageShape(source: Image, s: Slot, orientation: string)
    requires source.Valid() && s.Ordered()
    ensures
      var c := Crop(source, PixelBox(s));
      var img := SlotImage(source, s, orientation);
      && (s.rotate && orientation == "landscape" ==>
            img.width == c.height && img.height == c.width
            && forall y, x :: 0 <= y < img.height && 0 <= x < img.width ==>
                 img.rows[y][x] == c.rows[x][c.width - 1 - y])
      && (!(s.rotate && orientation == "landscape") ==> img == c)
  {
  }

  /** A slot's crop is the slot's size to within one pixel each way. */
  lemma SlotCropSize(source: Image, s: Slot)
    requires source.Valid() && s.Ordered()
    ensures
      var c := Crop(source, PixelBox(s));
      && -1.0 <= c.width as real - (s.right - s.left) <= 1.0
      && -1.0 <= c.height as real - (s.bottom - s.top) <= 1.0
  {
    var b := PixelBox(s);
    var c := Crop(source, b);
    assert c.width as real == b.right as real - b.left as real;
    assert c.height as real == b.bottom as real - b.top as real;
  }

  datatype SplitError =
    | UnknownUnit   // the print size's unit is neither "inch" nor "cm"
    | InvertedBox   // a slot's box has right < left or bottom < top

  /** Cuts `count` photos out of a scanned sheet. Only three prints per sheet
      are laid out; any other count gives `count` empty entries. */
  function SplitImages(source: Image, scanWidth: int, scanHeight: int, resolution: int,
                       format: PictureFormat, orientation: string, count: int): (r: Result<seq<Option<Image>>, SplitError>)
    requires source.Valid()
    // the print size is converted before the count is looked at
    ensures LengthToPixels(resolution, format).None? ==> r == Failure(UnknownUnit)
    ensures r.Success? ==> |r.value| == if count < 0 then 0 else count
    ensures count != 3 ==> (r.Success? <==> LengthToPixels(resolution, format).Some?)
    ensures count != 3 && r.Success? ==> forall i :: 0 <= i < |r.value| ==> r.value[i].None?
    ensures count == 3 ==>
              (r.Success? <==> LengthToPixels(resolution, format).Some?
                               && LengthToPixels(resolution, format).value.0 >= 0.0
                               && LengthToPixels(resolution, format).value.1 >= 0.0)
    ensures count == 3 && r.Failure? && LengthToPixels(resolution, format).Some? ==> r.error == InvertedBox
    ensures count == 3 && r.Success? ==>
              var px := LengthToPixels(resolution, format).value;
              var slots := Layout(3, px.0, px.1, scanWidth, scanHeight);
              forall i :: 0 <= i < 3 ==>
                slots[i].Ordered() && r.value[i] == Some(SlotImage(source, slots[i], orientation))
  {
    match LengthToPixels(resolution, format)
    case None => Failure(UnknownUnit)
    case Some(px) =>
      var slots := Layout(count, px.0, px.1, scanWidth, scanHeight);
      if count != 3 then
        Success(seq(if count < 0 then 0 else count, _ => None))
      else
        LayoutOrdered(px.0, px.1, scanWidth, scanHeight);
        if forall i :: 0 <= i < |slots| ==> slots[i].Ordered() then
          Success(seq(|slots|, (i: int) requires 0 <= i < |slots| => Some(SlotImage(source, slots[i], orientation))))
        else
          Failure(InvertedBox)
  }

  /** Six-by-four-inch prints at 600 dpi on a 4771 x 5921 sheet: every slot is
      on the sheet, and in landscape mode all three photos come out 3528 x 2376. */
  lemma SplitSixByFourLandscape(source: Image)
    requires source.Valid() && source.width == 4771 && source.height == 5921
    ensures
      var r := SplitImages(source, 4771, 5921, 600, PictureFormat(6.0, 4.0, "inch"), "landscape", 3);
      && r.Success? && |r.value| == 3
      && (forall i :: 0 <= i < 3 ==> Layout(3, 3528.0, 2376.0, 4771, 5921)[i].Inside(4771, 5921))
      && forall i :: 0 <= i < 3 ==>
           r.value[i].Some? && r.value[i].value.width == 3528 && r.value[i].value.height == 2376
  {
    var px := LengthToPixels(600, PictureFormat(6.0, 4.0, "inch")).value;
    assert px == (3528.0, 2376.0);
    RoundCoordinateOfInteger(0);
    RoundCoordinateOfInteger(2376);
    RoundCoordinateOfInteger(2395);
    RoundCoordinateOfInteger(3528);
    RoundCoordinateOfInteger(3545);
    RoundCoordinateOfInteger(4771);
    RoundCoordinateOfInteger(5921);
  }

  /** The same sheet in portrait mode: the two top photos stay upright,
      2376 x 3528, and only the bottom one is 3528 x 2376. */
  lemma SplitSixByFourPortrait(source: Image)
    requires source.Valid() && source.width == 4771 && source.height == 5921
    ensures
      var r := SplitImages(source, 4771, 5921, 600, PictureFormat(6.0, 4.0, "inch"), "portrait", 3);
      && r.Success? && |r.value| == 3 && r.value[0].Some? && r.value[1].Some? && r.value[2].Some?
      && r.value[0].value.width == 2376 && r.value[0].value.height == 3528
      && r.value[1].value.width == 2376 && r.value[1].value.height == 3528
      && r.value[2].value.width == 3528 && r.value[2].value.height == 2376
  {
    var px := LengthToPixels(600, PictureFormat(6.0, 4.0, "inch")).value;
    assert px == (3528.0, 2376.0);
    RoundCoordinateOfInteger(0);
    RoundCoordinateOfInteger(2376);
    RoundCoordinateOfInteger(2395);
    RoundCoordinateOfInteger(3528);
    RoundCoordinateOfInteger(3545);
    RoundCoordinateOfInteger(4771);
    RoundCoordinateOfInteger(5921);
  }
}

=== FILE: raster.dfy ===
/** Rasters of RGB pixels and the two image operations the splitter needs:
    cropping to a box and a quarter turn. */
module Raster {

  newtype byte = x: int | 0 <= x < 256

  datatype Pixel = Pixel(red: byte, green: byte, blue: byte)

  /** The pixel the image library fills in where a crop box leaves the source. */
  const Blank: Pixel := Pixel(0, 0, 0)

  /** A raster stored row by row, top row first. */
  datatype Image = Image(width: nat, height: nat, rows: seq<seq<Pixel>>) {
    predicate Valid() {
      |rows| == height && forall y :: 0 <= y < |rows| ==> |rows[y]| == width
    }
  }

  /** A crop box in pixel coordinates: columns left..right-1, rows top..bottom-1. */
  datatype Box = Box(left: int, top: int, right: int, bottom: int) {
    predicate Ordered() {
      left <= right && top <= bottom
    }

    /** The box lies on the `width` x `height` raster. */
    predicate Inside(width: int, height: int) {
      0 <= left && right <= width && 0 <= top && bottom <= height
    }
  }

  /** The pixel at column `x`, row `y`, or Blank off the raster. */
  function At(img: Image, x: int, y: int): Pixel
    requires img.Valid()
  {
    if 0 <= x < img.width && 0 <= y < img.height then img.rows[y][x] else Blank
  }

  /** The part of `img` under box `b`; where the box leaves the source the
      result is padded with Blank pixels. */
  function Crop(img: Image, b: Box): (c: Image)
    requires img.Valid() && b.Ordered()
    ensures c.Valid()
    ensures c.width == b.right - b.left && c.height == b.bottom - b.top
    ensures forall y, x :: 0 <= y < c.height && 0 <= x < c.width ==>
              c.rows[y][x] == At(img, b.left + x, b.top + y)
  {
    Image(b.right - b.left, b.bottom - b.top,
          seq(b.bottom - b.top, y => seq(b.right - b.left, x => At(img, b.left + x, b.top + y))))
  }

  /** A box inside the raster copies source pixels only: no padding appears. */
  lemma CropInside(img: Image, b: Box)
    requires img.Valid() && b.Ordered() && b.Inside(img.width, img.height)
    ensures forall y, x :: 0 <= y < b.bottom - b.top && 0 <= x < b.right - b.left ==>
              Crop(img, b).rows[y][x] == img.rows[b.top + y][b.left + x]
  {
  }

  /** Cropping to the whole raster gives the raster back. */
  lemma CropWhole(img: Image)
    requires img.Valid()
    ensures Crop(img, Box(0, 0, img.width, img.height)) == img
  {
    var c := Crop(img, Box(0, 0, img.width, img.height));
    forall y | 0 <= y < img.height
      ensures c.rows[y] == img.rows[y]
    {
    }
  }

  /** A quarter turn counter-clockwise with the canvas expanded, so the
      width and height swap: the top-right corner becomes the top-left. */
  function Rotate90(img: Image): (r: Image)
    requires img.Valid()
    ensures r.Valid()
    ensures r.width == img.height && r.height == img.width
    ensures forall y, x :: 0 <= y < r.height && 0 <= x < r.width ==>
              r.rows[y][x] == img.rows[x][img.width - 1 - y]
  {
    Image(img.height, img.width,
          seq(img.width, (y: int) requires 0 <= y < img.width =>
            seq(img.height, (x: int) requires 0 <= x < img.height => img.rows[x][img.width - 1 - y])))
  }

  /** Two quarter turns: the raster turned upside down. */
  lemma RotateTwice(img: Image)
    requires img.Valid()
    ensures Rotate90(Rotate90(img)).width == img.width
    ensures Rotate90(Rotate90(img)).height == img.height
    ensures forall y, x :: 0 <= y < img.height && 0 <= x < img.width ==>
              Rotate90(Rotate90(img)).rows[y][x] == img.rows[img.height - 1 - y][img.width - 1 - x]
  {
  }

  /** Four quarter turns give the raster back. */
  lemma RotateFour(img: Image)
    requires img.Valid()
    ensures Rotate90(Rotate90(Rotate90(Rotate90(img)))) == img
  {
    var r2 := Rotate90(Rotate90(img));
    RotateTwice(img);
    RotateTwice(r2);
    var r4 := Rotate90(Rotate90(r2));
    forall y | 0 <= y < img.height
      ensures r4.rows[y] == img.rows[y]
    {
      forall x | 0 <= x < img.width
        ensures r4.rows[y][x] == img.rows[y][x]
      {
        assert r4.rows[y][x] == r2.rows[img.height - 1 - y][img.width - 1 - x];
      }
    }
  }
}

=== FILE: raw_rgb.dfy ===
/** Conversion of a page's raw byte stream into a raster (raw_to_img in
    Scanner.py): interleaved 24-bit RGB, row-major, no row padding. */
module RawRgb {
  import opened Results
  import opened Raster

  /** The pixel encoding a device reports for a page. */
  datatype ImgFormat = RawRgb24 | OtherFormat(name: string)

  /** What the device reports for the page about to be read. */
  datatype ScanParams = ScanParams(format: ImgFormat, width: nat, height: nat, imageSize: nat)

  datatype ConvertError =
    | NotRawRgb24   // the assertion on the format fails
    | ZeroWidth     // the height computation divides by a zero width

  lemma MulStep(a: nat, h: nat)
    requires h > 0
    ensures a * h == a + a * (h - 1)
    ensures a <= a * h
  {
  }

  lemma DivBounds(n: nat, d: nat)
    requires d > 0
    ensures n / d >= 0
    ensures d * (n / d) <= n < d * (n / d) + d
  {
  }

  /** The whole rows of `w` pixels that `n` bytes hold, and the remainder. */
  lemma WholeRows(n: nat, w: nat)
    requires w > 0
    ensures n / (3 * w) >= 0
    ensures 3 * w * (n / (3 * w)) <= n < 3 * w * (n / (3 * w)) + 3 * w
  {
    DivBounds(n, 3 * w);
  }

  /** One row of `w` pixels from the first 3*w bytes. */
  function DecodeRow(b: seq<byte>, w: nat): (row: seq<Pixel>)
    requires |b| >= 3 * w
    ensures |row| == w
    decreases w
  {
    if w == 0 then [] else [Pixel(b[0], b[1], b[2])] + DecodeRow(b[3..], w - 1)
  }

  /** `h` rows of `w` pixels from the first 3*w*h bytes. */
  function DecodeRows(b: seq<byte>, w: nat, h: nat): (rows: seq<seq<Pixel>>)
    requires |b| >= 3 * w * h
    ensures |rows| == h && forall y :: 0 <= y < h ==> |rows[y]| == w
    decreases h
  {
    if h == 0 then []
    else
      MulStep(3 * w, h);
      [DecodeRow(b, w)] + DecodeRows(b[3 * w..], w, h - 1)
  }

  function EncodeRow(row: seq<Pixel>): (b: seq<byte>)
    ensures |b| == 3 * |row|
  {
    if row == [] then [] else [row[0].red, row[0].green, row[0].blue] + EncodeRow(row[1..])
  }

  /** The byte stream of a raster whose rows all hold `w` pixels. */
  function EncodeRows(rows: seq<seq<Pixel>>, w: nat): (b: seq<byte>)
    requires forall y :: 0 <= y < |rows| ==> |rows[y]| == w
    ensures |b| == 3 * w * |rows|
  {
    if rows == [] then []
    else
      MulStep(3 * w, |rows|);
      EncodeRow(rows[0]) + EncodeRows(rows[1..], w)
  }

  /** Pixel `x` of a decoded row comes from bytes 3x, 3x+1 and 3x+2. */
  lemma {:induction false} DecodeRowAt(b: seq<byte>, w: nat, x: nat)
    requires |b| >= 3 * w && x < w
    ensures DecodeRow(b, w)[x] == Pixel(b[3 * x], b[3 * x + 1], b[3 * x + 2])
    decreases w
  {
    if x > 0 {
      DecodeRowAt(b[3..], w - 1, x - 1);
    }
  }

  lemma {:induction false} EncodeDecodeRow(b: seq<byte>, w: nat)
    requires |b| >= 3 * w
    ensures EncodeRow(DecodeRow(b, w)) == b[..3 * w]
    decreases w
  {
    if w > 0 {
      EncodeDecodeRow(b[3..], w - 1);
      assert b[..3 * w] == [b[0], b[1], b[2]] + b[3..][..3 * (w - 1)];
    }
  }

  lemma {:induction false} DecodeEncodeRow(row: seq<Pixel>, rest: seq<byte>)
    ensures DecodeRow(EncodeRow(row) + rest, |row|) == row
  {
    if row != [] {
      var head := [row[0].red, row[0].green, row[0].blue];
      var tail := EncodeRow(row[1..]) + rest;
      var b := EncodeRow(row) + rest;
      assert b == head + tail;
      assert b[3..] == tail;
      DecodeEncodeRow(row[1..], rest);
      assert DecodeRow(b, |row|) == [Pixel(b[0], b[1], b[2])] + DecodeRow(tail, |row| - 1);
    }
  }

  /** Encoding the decoded rows gives back exactly the bytes they were read from. */
  lemma {:induction false} EncodeDecodeRows(b: seq<byte>, w: nat, h: nat)
    requires |b| >= 3 * w * h
    ensures EncodeRows(DecodeRows(b, w, h), w) == b[..3 * w * h]
    decreases h
  {
    if h > 0 {
      MulStep(3 * w, h);
      EncodeDecodeRow(b, w);
      EncodeDecodeRows(b[3 * w..], w, h - 1);
      assert b[..3 * w * h] == b[..3 * w] + b[3 * w..][..3 * w * (h - 1)];
    }
  }

  lemma {:induction false} DecodeEncodeRows(rows: seq<seq<Pixel>>, w: nat)
    requires forall y :: 0 <= y < |rows| ==> |rows[y]| == w
    ensures DecodeRows(EncodeRows(rows, w), w, |rows|) == rows
  {
    if rows != [] {
      var b := EncodeRows(rows, w);
      DecodeEncodeRow(rows[0], EncodeRows(rows[1..], w));
      assert b[3 * w..] == EncodeRows(rows[1..], w);
      DecodeEncodeRows(rows[1..], w);
    }
  }

  /** The page's bytes as a raster: the width is the device's, the height is
      as many whole rows as the bytes hold. */
  function RawToImg(params: ScanParams, bytes: seq<byte>): (r: Result<Image, ConvertError>)
    ensures params.format != RawRgb24 ==> r == Failure(NotRawRgb24)
    ensures params.format == RawRgb24 ==> (r.Failure? <==> params.width == 0)
    ensures params.format == RawRgb24 && params.width == 0 ==> r == Failure(ZeroWidth)
    ensures r.Success? ==>
              && r.value.Valid()
              && r.value.width == params.width
              && r.value.height == |bytes| / (3 * params.width)
  {
    if params.format != RawRgb24 then Failure(NotRawRgb24)
    else if params.width == 0 then Failure(ZeroWidth)
    else Success(Decode(bytes, params.width))
  }

  /** The whole rows of `w` pixels that the stream holds. */
  function Decode(bytes: seq<byte>, w: nat): (img: Image)
    requires w > 0
    ensures img.Valid() && img.width == w && img.height == |bytes| / (3 * w)
  {
    WholeRows(|bytes|, w);
    var h: nat := |bytes| / (3 * w);
    Image(w, h, DecodeRows(bytes, w, h))
  }

  /** The raster's byte stream, top row first. */
  function Encode(img: Image): (b: seq<byte>)
    requires img.Valid()
    ensures |b| == 3 * img.width * img.height
  {
    EncodeRows(img.rows, img.width)
  }

  /** The conversion keeps every whole row of the stream, in order, and drops
      only the trailing bytes too few to make another row. */
  lemma RawToImgKeepsWholeRows(params: ScanParams, bytes: seq<byte>)
    requires params.format == RawRgb24 && params.width > 0
    ensures RawToImg(params, bytes).Success?
    ensures
      var img := RawToImg(params, bytes).value;
      && Encode(img) == bytes[..3 * img.width * img.height]
      && |bytes| - 3 * img.width * img.height < 3 * img.width
  {
    var w := params.width;
    var h := |bytes| / (3 * w);
    WholeRows(|bytes|, w);
    EncodeDecodeRows(bytes, w, h);
  }

  lemma MulMono(a: nat, m: nat, n: nat)
    requires m <= n
    ensures a * m <= a * n
  {
  }

  /** `a * h` bytes split into rows of `a` give exactly `h` rows. */
  lemma DivExact(a: nat, h: nat)
    requires a > 0
    ensures (a * h) / a == h
  {
    var q := (a * h) / a;
    DivBounds(a * h, a);
    if q < h {
      MulMono(a, q + 1, h);
      MulStep(a, q + 1);
    } else if q > h {
      MulMono(a, h + 1, q);
      MulStep(a, h + 1);
    }
  }

  /** Row `y` of the decoded rows is decoded from the stream at offset 3*w*y. */
  lemma {:induction false} RowOfDecodeRows(b: seq<byte>, w: nat, h: nat, y: nat)
    requires |b| >= 3 * w * h && y < h
    ensures 3 * w * y + 3 * w <= |b|
    ensures DecodeRows(b, w, h)[y] == DecodeRow(b[3 * w * y..], w)
    decreases h
  {
    var a := 3 * w;
    MulStep(a, h);
    MulMono(a, y + 1, h);
    MulStep(a, y + 1);
    if y > 0 {
      var tail := b[a..];
      RowOfDecodeRows(tail, w, h - 1, y - 1);
      assert DecodeRows(b, w, h)[y] == DecodeRows(tail, w, h - 1)[y - 1];
      MulStep(a, y);
      assert tail[a * (y - 1)..] == b[a * y..];
    }
  }

  lemma PixelOffset(w: nat, x: nat, y: nat)
    ensures 3 * (y * w + x) == 3 * w * y + 3 * x
  {
  }

  lemma DecodePixel(bytes: seq<byte>, w: nat, x: nat, y: nat)
    requires w > 0 && x < w && y < |bytes| / (3 * w)
    ensures 3 * (y * w + x) + 2 < |bytes|
    ensures Decode(bytes, w).rows[y][x] == Pixel(bytes[3 * (y * w + x)], bytes[3 * (y * w + x) + 1], bytes[3 * (y * w + x) + 2])
  {
    WholeRows(|bytes|, w);
    var h := |bytes| / (3 * w);
    var start := 3 * w * y;
    RowOfDecodeRows(bytes, w, h, y);
    assert Decode(bytes, w).rows[y] == DecodeRow(bytes[start..], w);
    DecodeRowAt(bytes[start..], w, x);
    PixelOffset(w, x, y);
    var i := 3 * (y * w + x);
    assert i == start + 3 * x;
    assert bytes[start..][3 * x] == bytes[i];
    assert bytes[start..][3 * x + 1] == bytes[i + 1];
    assert bytes[start..][3 * x + 2] == bytes[i + 2];
  }

  /** Pixel `(x, y)` of the converted page is made of bytes
      3(yw+x), 3(yw+x)+1 and 3(yw+x)+2 of the stream. */
  lemma RawToImgPixel(params: ScanParams, bytes: seq<byte>, x: nat, y: nat)
    requires params.format == RawRgb24 && params.width > 0
    requires x < params.width && y < |bytes| / (3 * params.width)
    ensures
      var i := 3 * (y * params.width + x);
      && i + 2 < |bytes|
      && RawToImg(params, bytes).value.rows[y][x] == Pixel(bytes[i], bytes[i + 1], bytes[i + 2])
  {
    DecodePixel(bytes, params.width, x, y);
  }

  lemma DecodeOfEncode(img: Image)
    requires img.Valid() && img.width > 0
    ensures Decode(Encode(img), img.width) == img
  {
    var w := img.width;
    var b := Encode(img);
    DivExact(3 * w, img.height);
    DecodeEncodeRows(img.rows, w);
  }

  /** A raster encoded and converted back at its own width is the same raster. */
  lemma RawToImgOfEncode(img: Image, format: ImgFormat, imageSize: nat)
    requires img.Valid() && img.width > 0 && format == RawRgb24
    ensures RawToImg(ScanParams(format, img.width, img.height, imageSize), Encode(img)) == Success(img)
  {
    DecodeOfEncode(img);
  }
}

=== FILE: results.dfy ===
/** Failure-carrying wrappers shared by the other modules. */
module Results {

  /** A value that may be absent, as Python's `None` return. */
  datatype Option<+T> = None | Some(value: T)

  /** Either a computed value or the exception that ended the computation. */
  datatype Result<+T, +E> = Success(value: T) | Failure(error: E)
}

=== FILE: scanner.dfy ===
/** The scan loop of Scanner.py (Scanner.scan) over an abstract device
    session, returning the trace of its observable effects, and the fixed
    three-way split the loop applies to every converted page. */
module Scanner {
  import opened Results
  import opened Raster
  import opened RawRgb

  /** Pages read in one scan at most, whatever the feeder still holds. */
  const MaxPages: nat := 20

  /** Bytes asked of the device per read. */
  const ReadSize: nat := 128 * 1024

  /** One sheet as the device delivers it: the parameters it reports for the
      page, the chunks successive reads return until end of page, and whether
      the read after the last chunk raises instead. */
  datatype Page = Page(params: ScanParams, chunks: seq<seq<byte>>, readFault: bool)

  /** A started session; end of feed is reported once every page is taken. */
  datatype Session = Session(pages: seq<Page>)

  datatype ScanError =
    | StartFailed                        // the session could not be started
    | ReadFailed                         // a read on the device raised
    | DivisionByZero                     // a chunk arrived on a page whose expected size is 0
    | ConversionFailed(cause: ConvertError)

  /** What the scan does that can be observed from outside. */
  datatype Effect =
    | Progress(page: nat, percent: nat)                   // progress line after a chunk
    | SaveJpeg(page: nat, name: string, image: Image)     // an image written as JPEG
    | WriteBytes(page: nat, name: string, data: seq<byte>) // a page written as raw bytes
    | Cancel                                              // the session released

  /** The effect belongs to one of pages `lo` .. `hi`-1. */
  predicate OnPages(e: Effect, lo: nat, hi: nat) {
    !e.Cancel? && lo <= e.page < hi
  }

  /** The effects of a stretch of the scan and how it ended. */
  datatype Run<T> = Run(effects: seq<Effect>, outcome: Result<T, ScanError>)

  /** The bytes of the chunks, in order. */
  function Concat(chunks: seq<seq<byte>>): (data: seq<byte>)
  {
    if chunks == [] then [] else chunks[0] + Concat(chunks[1..])
  }

  /** Joining two runs of chunks one after the other is joining each and
      appending the results. */
  lemma {:induction false} ConcatAppend(a: seq<seq<byte>>, b: seq<seq<byte>>)
    ensures Concat(a + b) == Concat(a) + Concat(b)
  {
    if a == [] {
      assert a + b == b;
    } else {
      assert (a + b)[0] == a[0] && (a + b)[1..] == a[1..] + b;
      ConcatAppend(a[1..], b);
    }
  }

  /** How many pages a scan of `pages` gets through when nothing fails. */
  function Limit(pages: seq<Page>): (n: nat)
    ensures n <= MaxPages && n <= |pages|
    ensures n == MaxPages || n == |pages|
  {
    if |pages| < MaxPages then |pages| else MaxPages
  }

  /** The chunk loop of one page: `r` bytes of the `total` expected were read
      before `chunks`; each chunk is appended and followed by a progress
      report `int(r / total * 100)`. */
  function ReadChunks(chunks: seq<seq<byte>>, fault: bool, r: nat, total: nat, page: nat): (run: Run<seq<byte>>)
    ensures forall i :: 0 <= i < |run.effects| ==> run.effects[i].Progress? && run.effects[i].page == page
    ensures |run.effects| == if total == 0 then 0 else |chunks|
    ensures run.outcome.Success? <==> !fault && (total > 0 || chunks == [])
    ensures run.outcome.Failure? ==> run.outcome.error == if chunks != [] && total == 0 then DivisionByZero else ReadFailed
    ensures run.outcome.Success? ==> run.outcome.value == Concat(chunks)
    decreases |chunks|
  {
    if chunks == [] then
      if fault then Run([], Failure(ReadFailed)) else Run([], Success([]))
    else if total == 0 then
      Run([], Failure(DivisionByZero))
    else
      var read := r + |chunks[0]|;
      var rest := ReadChunks(chunks[1..], fault, read, total, page);
      Run([Progress(page, read * 100 / total)] + rest.effects,
          match rest.outcome
          case Success(data) => Success(chunks[0] + data)
          case Failure(e) => Failure(e))
  }

  /** The report after chunk `i` is the percentage of the expected size read
      so far, chunk `i` included. */
  lemma {:induction false} ReadChunksProgress(chunks: seq<seq<byte>>, fault: bool, r: nat, total: nat, page: nat)
    requires total > 0
    ensures forall i :: 0 <= i < |chunks| ==>
              ReadChunks(chunks, fault, r, total, page).effects[i].percent
              == (r + |Concat(chunks[..i + 1])|) * 100 / total
    decreases |chunks|
  {
    if chunks != [] {
      var read := r + |chunks[0]|;
      ReadChunksProgress(chunks[1..], fault, read, total, page);
      forall i | 0 <= i < |chunks|
        ensures ReadChunks(chunks, fault, r, total, page).effects[i].percent
                == (r + |Concat(chunks[..i + 1])|) * 100 / total
      {
        assert chunks[..i + 1][1..] == chunks[1..][..i];
        if i > 0 {
          assert ReadChunks(chunks, fault, r, total, page).effects[i]
                 == ReadChunks(chunks[1..], fault, read, total, page).effects[i - 1];
        }
      }
    }
  }

  lemma {:induction false} ConcatPrefixGrows(chunks: seq<seq<byte>>, i: nat, j: nat)
    requires i <= j <= |chunks|
    ensures |Concat(chunks[..i])| <= |Concat(chunks[..j])|
    decreases i
  {
    if i > 0 {
      assert chunks[..i][1..] == chunks[1..][..i - 1];
      assert chunks[..j][1..] == chunks[1..][..j - 1];
      ConcatPrefixGrows(chunks[1..], i - 1, j - 1);
    }
  }

  lemma DivMono(a: nat, b: nat, d: nat)
    requires a <= b && d > 0
    ensures a / d <= b / d
  {
    DivBounds(a, d);
    DivBounds(b, d);
    if a / d > b / d {
      MulMono(d, b / d + 1, a / d);
      MulStep(d, b / d + 1);
    }
  }

  /** Within a page the reported progress never goes down. */
  lemma ProgressNonDecreasing(chunks: seq<seq<byte>>, fault: bool, total: nat, page: nat)
    ensures var effects := ReadChunks(chunks, fault, 0, total, page).effects;
            forall i, j :: 0 <= i < j < |effects| ==> effects[i].percent <= effects[j].percent
  {
    var effects := ReadChunks(chunks, fault, 0, total, page).effects;
    if total > 0 {
      ReadChunksProgress(chunks, fault, 0, total, page);
      forall i, j | 0 <= i < j < |effects|
        ensures effects[i].percent <= effects[j].percent
      {
        ConcatPrefixGrows(chunks, i + 1, j + 1);
        DivMono(|Concat(chunks[..i + 1])| * 100, |Concat(chunks[..j + 1])| * 100, total);
      }
    }
  }

  /** When every read returns at most the bytes asked for, the page holds at
      most that many bytes per progress report. */
  lemma {:induction false} ReadsBoundPageSize(chunks: seq<seq<byte>>)
    requires forall i :: 0 <= i < |chunks| ==> |chunks[i]| <= ReadSize
    ensures |Concat(chunks)| <= ReadSize * |chunks|
  {
    if chunks != [] {
      ReadsBoundPageSize(chunks[1..]);
      MulStep(ReadSize, |chunks|);
    }
  }

  /** Every read returned at most the 128 KiB it asked for. */
  predicate ReadsWithinRequest(p: Page) {
    forall i :: 0 <= i < |p.chunks| ==> |p.chunks[i]| <= ReadSize
  }

  /** A page read in reads of at most 128 KiB each holds at most 128 KiB per
      progress report made while reading it. */
  lemma PageBytesBound(p: Page, n: nat)
    requires ReadsWithinRequest(p)
    requires p.params.imageSize > 0
    ensures
      var read := ReadChunks(p.chunks, p.readFault, 0, p.params.imageSize, n);
      read.outcome.Success? ==> |read.outcome.value| <= ReadSize * |read.effects|
  {
    ReadsBoundPageSize(p.chunks);
  }

  /** The crop boxes of the fixed split, for a 4771 x 5921 scan at 600 dpi. */
  const FixedBoxes: seq<Box> := [Box(0, 0, 2377, 3529), Box(2377, 0, 4771, 3529), Box(0, 3529, 3546, 5921)]

  /** The fixed split of a converted page: the two top boxes turned a quarter,
      the bottom box as cropped. */
  function FixedSplit(img: Image): (parts: seq<Image>)
    requires img.Valid()
    ensures |parts| == 3 && parts[0].Valid() && parts[1].Valid() && parts[2].Valid()
    ensures parts[0].width == 3529 && parts[0].height == 2377
    ensures parts[1].width == 3529 && parts[1].height == 2394
    ensures parts[2].width == 3546 && parts[2].height == 2392
    ensures forall y, x :: 0 <= y < 2377 && 0 <= x < 3529 ==> parts[0].rows[y][x] == At(img, 2376 - y, x)
    ensures forall y, x :: 0 <= y < 2394 && 0 <= x < 3529 ==> parts[1].rows[y][x] == At(img, 4770 - y, x)
    ensures forall y, x :: 0 <= y < 2392 && 0 <= x < 3546 ==> parts[2].rows[y][x] == At(img, x, 3529 + y)
  {
    [ Rotate90(Crop(img, FixedBoxes[0])),
      Rotate90(Crop(img, FixedBoxes[1])),
      Crop(img, FixedBoxes[2]) ]
  }

  /** The two top boxes meet edge to edge and together span the full width
      of a 4771 x 5921 sheet; the bottom box starts where they end; all three
      lie on the sheet, so the split copies pixels without padding. */
  lemma FixedBoxesTile(img: Image)
    requires img.Valid() && img.width == 4771 && img.height == 5921
    ensures FixedBoxes[0].right == FixedBoxes[1].left && FixedBoxes[0].left == 0 && FixedBoxes[1].right == img.width
    ensures FixedBoxes[0].top == FixedBoxes[1].top == 0 && FixedBoxes[0].bottom == FixedBoxes[1].bottom == FixedBoxes[2].top
    ensures FixedBoxes[2].bottom == img.height
    ensures forall i :: 0 <= i < 3 ==> FixedBoxes[i].Ordered() && FixedBoxes[i].Inside(img.width, img.height)
    ensures forall y, x :: 0 <= y < 2392 && 0 <= x < 3546 ==> FixedSplit(img)[2].rows[y][x] == img.rows[3529 + y][x]
    ensures forall y, x :: 0 <= y < 2377 && 0 <= x < 3529 ==>
              FixedSplit(img)[0].rows[y][x] == img.rows[x][2376 - y]
  {
    CropInside(img, FixedBoxes[0]);
    CropInside(img, FixedBoxes[2]);
  }

  /** The JPEG files the fixed split writes for a page: the three parts in
      order, under fixed names that do not depend on the page. */
  function FixedSplitSaves(img: Image, page: nat): (effects: seq<Effect>)
    requires img.Valid()
    ensures |effects| == 3
    ensures forall i :: 0 <= i < 3 ==> effects[i].SaveJpeg? && effects[i].page == page
    ensures effects[0].name == "splitTest1.jpg" && effects[1].name == "splitTest2.jpg" && effects[2].name == "splitTest3.jpg"
    ensures forall i :: 0 <= i < 3 ==> effects[i].image == FixedSplit(img)[i]
  {
    var parts := FixedSplit(img);
    [ SaveJpeg(page, "splitTest1.jpg", parts[0]),
      SaveJpeg(page, "splitTest2.jpg", parts[1]),
      SaveJpeg(page, "splitTest3.jpg", parts[2]) ]
  }

  /** One turn of the page loop for page number `n`, using that page's own
      parameters; `output` is the file-name template, if any. */
  function PageRun(p: Page, n: nat, output: Option<nat -> string>): (run: Run<()>)
    ensures forall i :: 0 <= i < |run.effects| ==> !run.effects[i].Cancel? && run.effects[i].page == n
    ensures output.None? ==> forall i :: 0 <= i < |run.effects| ==> run.effects[i].Progress?
    // an error while reading ends the turn with that error
    ensures var read := ReadChunks(p.chunks, p.readFault, 0, p.params.imageSize, n);
            read.outcome.Failure? ==> run == Run(read.effects, Failure(read.outcome.error))
    // without a template a page that reads through is done
    ensures var read := ReadChunks(p.chunks, p.readFault, 0, p.params.imageSize, n);
            read.outcome.Success? && output.None? ==> run == Run(read.effects, Success(()))
  {
    var read := ReadChunks(p.chunks, p.readFault, 0, p.params.imageSize, n);
    match read.outcome
    case Failure(e) => Run(read.effects, Failure(e))
    case Success(data) =>
      match output
      case None => Run(read.effects, Success(()))
      case Some(nameOf) =>
        if p.params.format == RawRgb24 then
          match RawToImg(p.params, data)
          case Failure(e) => Run(read.effects, Failure(ConversionFailed(e)))
          case Success(img) =>
            Run(read.effects + [SaveJpeg(n, nameOf(n), img)] + FixedSplitSaves(img, n), Success(()))
        else
          Run(read.effects + [WriteBytes(n, nameOf(n), data)], Success(()))
  }

  /** A page is written under the template's name for its number: a raw RGB
      page is converted with its own width and saved, then split; any other
      format is written as the bytes read. */
  lemma PageRunWrites(p: Page, n: nat, nameOf: nat -> string)
    requires ReadChunks(p.chunks, p.readFault, 0, p.params.imageSize, n).outcome.Success?
    ensures
      var progress := ReadChunks(p.chunks, p.readFault, 0, p.params.imageSize, n).effects;
      var data := Concat(p.chunks);
      var run := PageRun(p, n, Some(nameOf));
      && (p.params.format != RawRgb24 ==>
            run == Run(progress + [WriteBytes(n, nameOf(n), data)], Success(())))
      && (p.params.format == RawRgb24 && p.params.width == 0 ==>
            run == Run(progress, Failure(ConversionFailed(ZeroWidth))))
      && (p.params.format == RawRgb24 && p.params.width > 0 ==>
            var img := RawToImg(p.params, data).value;
            && img.width == p.params.width
            && img.height == |data| / (3 * p.params.width)
            && run == Run(progress + [SaveJpeg(n, nameOf(n), img)] + FixedSplitSaves(img, n), Success(())))
  {
  }

  /** What the turn of each page the loop can reach does: turn `k` runs
      page `k` under its own number. */
  function PageTurns(pages: seq<Page>, output: Option<nat -> string>): (turns: seq<Run<()>>)
    ensures |turns| == Limit(pages) <= |pages|
    ensures forall k :: 0 <= k < |turns| ==> turns[k] == PageRun(pages[k], k, output)
  {
    seq(Limit(pages), (k: int) requires 0 <= k < Limit(pages) => PageRun(pages[k], k, output))
  }

  /** The page loop from turn `n` on, over the turns it can reach: it stops
      after the last one or at the first one that raises. */
  function Loop(turns: seq<Run<()>>, n: nat): (run: Run<nat>)
    ensures run.outcome.Success? ==> run.outcome.value == if n < |turns| then |turns| else n
    decreases if n <= |turns| then |turns| - n else 0
  {
    if n >= |turns| then Run([], Success(n))
    else
      match turns[n].outcome
      case Failure(e) => Run(turns[n].effects, Failure(e))
      case Success(_) =>
        var rest := Loop(turns, n + 1);
        Run(turns[n].effects + rest.effects, rest.outcome)
  }

  /** The page loop from page number `n` on: it stops at end of feed, at the
      page cap, or at the first page that raises. */
  function ScanPages(pages: seq<Page>, n: nat, output: Option<nat -> string>): (run: Run<nat>)
    ensures run.outcome.Success? ==> run.outcome.value == if n < Limit(pages) then Limit(pages) else n
  {
    Loop(PageTurns(pages, output), n)
  }

  /** The whole scan: start the session, run the page loop, and release the
      session whatever the loop did. `None` stands for a session that could
      not be started. */
  function Scan(started: Option<Session>, output: Option<nat -> string>): (run: Run<nat>)
    ensures started.None? ==> run == Run([], Failure(StartFailed))
    ensures started.Some? ==> |run.effects| > 0 && run.effects[|run.effects| - 1] == Cancel
    ensures started.Some? && run.outcome.Success? ==> run.outcome.value == Limit(started.value.pages)
  {
    match started
    case None => Run([], Failure(StartFailed))
    case Some(session) =>
      var loop := ScanPages(session.pages, 0, output);
      Run(loop.effects + [Cancel], loop.outcome)
  }

  /** The effects of turns `from` .. `to`-1 one after the other. */
  function TurnEffects(turns: seq<Run<()>>, from: nat, to: nat): seq<Effect>
    requires to <= |turns|
    decreases if from <= to then to - from else 0
  {
    if from >= to then [] else turns[from].effects + TurnEffects(turns, from + 1, to)
  }

  /** Turns `from` .. `to`-1 all ran through without raising. */
  predicate TurnsSucceed(turns: seq<Run<()>>, from: nat, to: nat)
    requires to <= |turns|
  {
    forall k :: from <= k < to ==> turns[k].outcome.Success?
  }

  /** A loop that raises nothing takes every turn up to the last, in order,
      and its trace is exactly those turns' effects. */
  lemma {:induction false} LoopRunsOk(turns: seq<Run<()>>, n: nat)
    requires n <= |turns|
    requires Loop(turns, n).outcome.Success?
    ensures TurnsSucceed(turns, n, |turns|)
    ensures Loop(turns, n).effects == TurnEffects(turns, n, |turns|)
    decreases |turns| - n
  {
    if n < |turns| {
      assert turns[n].outcome.Success?;
      LoopRunsOk(turns, n + 1);
    }
  }

  /** A loop that raises stops at the first turn that raises, turn `k`: the
      turns before it ran through, the loop raises that turn's error, and
      the trace ends with that turn's effects. */
  lemma {:induction false} LoopRunsFail(turns: seq<Run<()>>, n: nat) returns (k: nat)
    requires n <= |turns|
    requires Loop(turns, n).outcome.Failure?
    ensures n <= k < |turns|
    ensures TurnsSucceed(turns, n, k)
    ensures turns[k].outcome == Failure(Loop(turns, n).outcome.error)
    ensures Loop(turns, n).effects == TurnEffects(turns, n, k + 1)
    decreases |turns| - n
  {
    assert TurnEffects(turns, n, n + 1) == turns[n].effects;
    if turns[n].outcome.Failure? {
      k := n;
    } else {
      k := LoopRunsFail(turns, n + 1);
    }
  }

  /** Every effect belongs to one of pages `lo` .. `hi`-1. */
  predicate AllOnPages(effects: seq<Effect>, lo: nat, hi: nat) {
    forall i :: 0 <= i < |effects| ==> OnPages(effects[i], lo, hi)
  }

  /** Page numbers never go down along the trace. */
  predicate InPageOrder(effects: seq<Effect>) {
    forall i, j :: 0 <= i < j < |effects| && !effects[i].Cancel? && !effects[j].Cancel? ==>
      effects[i].page <= effects[j].page
  }

  /** Every turn's effects belong to the page of the same number. */
  predicate TurnsOnOwnPage(turns: seq<Run<()>>) {
    forall k :: 0 <= k < |turns| ==> AllOnPages(turns[k].effects, k, k + 1)
  }

  lemma AppendPages(a: seq<Effect>, b: seq<Effect>, lo: nat, mid: nat, hi: nat)
    requires lo <= mid <= hi
    requires AllOnPages(a, lo, mid) && AllOnPages(b, mid, hi)
    requires InPageOrder(a) && InPageOrder(b)
    ensures AllOnPages(a + b, lo, hi) && InPageOrder(a + b)
  {
    var ab := a + b;
    forall i | 0 <= i < |ab|
      ensures OnPages(ab[i], lo, hi)
    {
      if i < |a| {
        assert OnPages(a[i], lo, mid);
      } else {
        assert ab[i] == b[i - |a|];
        assert OnPages(b[i - |a|], mid, hi);
      }
    }
    forall i, j | 0 <= i < j < |ab| && !ab[i].Cancel? && !ab[j].Cancel?
      ensures ab[i].page <= ab[j].page
    {
      if j < |a| {
        assert ab[i] == a[i] && ab[j] == a[j];
      } else if i >= |a| {
        assert ab[i] == b[i - |a|] && ab[j] == b[j - |a|];
      } else {
        assert OnPages(a[i], lo, mid);
        assert ab[j] == b[j - |a|];
        assert OnPages(b[j - |a|], mid, hi);
      }
    }
  }

  /** When each turn acts on its own page only, the loop from turn `n` acts
      on pages `n` .. last only, in non-decreasing order, and never releases
      the session itself. */
  lemma {:induction false} LoopPages(turns: seq<Run<()>>, n: nat)
    requires TurnsOnOwnPage(turns)
    ensures AllOnPages(Loop(turns, n).effects, n, |turns|)
    ensures InPageOrder(Loop(turns, n).effects)
    decreases if n <= |turns| then |turns| - n else 0
  {
    if n < |turns| {
      var turn := turns[n];
      assert AllOnPages(turn.effects, n, n + 1);
      if turn.outcome.Success? {
        LoopPages(turns, n + 1);
        AppendPages(turn.effects, Loop(turns, n + 1).effects, n, n + 1, |turns|);
      }
    }
  }

  /** Effects of the page loop from page `n` on name pages `n` .. cap-1 only,
      in non-decreasing order, and the loop never releases the session. */
  lemma ScanPagesPages(pages: seq<Page>, n: nat, output: Option<nat -> string>)
    ensures AllOnPages(ScanPages(pages, n, output).effects, n, Limit(pages))
    ensures InPageOrder(ScanPages(pages, n, output).effects)
  {
    var turns := PageTurns(pages, output);
    forall k | 0 <= k < |turns|
      ensures AllOnPages(turns[k].effects, k, k + 1)
    {
      assert turns[k] == PageRun(pages[k], k, output);
    }
    LoopPages(turns, n);
  }

  /** The session is released exactly once, as the last effect, whenever it
      was started; a session that could not be started is never released. */
  lemma ScanReleasesOnce(started: Option<Session>, output: Option<nat -> string>)
    ensures
      var effects := Scan(started, output).effects;
      && (started.Some? ==>
            && |effects| > 0 && effects[|effects| - 1] == Cancel
            && forall i :: 0 <= i < |effects| - 1 ==> !effects[i].Cancel?)
      && (started.None? ==>
            effects == [] && Scan(started, output).outcome == Failure(StartFailed))
  {
    if started.Some? {
      var loop := ScanPages(started.value.pages, 0, output).effects;
      ScanPagesPages(started.value.pages, 0, output);
      var effects := loop + [Cancel];
      assert Scan(started, output).effects == effects;
      forall i | 0 <= i < |effects| - 1
        ensures !effects[i].Cancel?
      {
        assert effects[i] == loop[i];
        assert OnPages(loop[i], 0, Limit(started.value.pages));
      }
    }
  }

  /** A scan that raises nothing goes through exactly min(pages, 20) pages;
      every effect before the release belongs to a page below both the cap
      and end of feed, and pages appear in the trace in order. */
  lemma ScanPageCap(session: Session, output: Option<nat -> string>)
    ensures Limit(session.pages) <= MaxPages && Limit(session.pages) <= |session.pages|
    ensures
      var run := Scan(Some(session), output);
      && (run.outcome.Success? ==> run.outcome.value == Limit(session.pages))
      && |run.effects| > 0
      && AllOnPages(run.effects[..|run.effects| - 1], 0, Limit(session.pages))
      && InPageOrder(run.effects)
  {
    var loop := ScanPages(session.pages, 0, output).effects;
    ScanPagesPages(session.pages, 0, output);
    var effects := loop + [Cancel];
    assert effects[..|effects| - 1] == loop;
    forall i, j | 0 <= i < j < |effects| && !effects[i].Cancel? && !effects[j].Cancel?
      ensures effects[i].page <= effects[j].page
    {
      assert effects[i] == loop[i] && effects[j] == loop[j];
    }
  }

  /** An empty feeder is no error: nothing but the release happens and the
      scan reports zero pages. */
  lemma ScanEmptyFeeder(output: Option<nat -> string>)
    ensures Scan(Some(Session([])), output) == Run([Cancel], Success(0))
  {
  }

  /** A read that raises on the first page ends the scan with that error:
      the page's progress reports, then the release, and nothing of later
      pages. */
  lemma ScanStopsOnReadFault(p: Page, rest: seq<Page>, output: Option<nat -> string>)
    requires p.readFault && p.params.imageSize > 0
    ensures
      var run := Scan(Some(Session([p] + rest)), output);
      && run.outcome == Failure(ReadFailed)
      && run.effects == ReadChunks(p.chunks, true, 0, p.params.imageSize, 0).effects + [Cancel]
  {
    var turns := PageTurns([p] + rest, output);
    assert turns[0] == PageRun(p, 0, output);
  }

  /** The trace holds progress reports only. */
  predicate OnlyProgress(effects: seq<Effect>) {
    forall i :: 0 <= i < |effects| ==> effects[i].Progress?
  }

  /** When no turn does more than report progress, neither does the loop. */
  lemma {:induction false} LoopOnlyProgress(turns: seq<Run<()>>, n: nat)
    requires forall k :: 0 <= k < |turns| ==> OnlyProgress(turns[k].effects)
    ensures OnlyProgress(Loop(turns, n).effects)
    decreases if n <= |turns| then |turns| - n else 0
  {
    if n < |turns| && turns[n].outcome.Success? {
      LoopOnlyProgress(turns, n + 1);
      assert OnlyProgress(turns[n].effects);
    }
  }

  /** A scan without an output template: the trace is progress reports and
      the release, nothing else. */
  lemma ScanWithoutOutputOnlyReports(started: Option<Session>)
    ensures forall i :: 0 <= i < |Scan(started, None).effects| ==>
              Scan(started, None).effects[i].Progress? || Scan(started, None).effects[i].Cancel?
  {
    if started.Some? {
      var turns := PageTurns(started.value.pages, None);
      forall k | 0 <= k < |turns|
        ensures OnlyProgress(turns[k].effects)
      {
        assert turns[k] == PageRun(started.value.pages[k], k, None);
      }
      LoopOnlyProgress(turns, 0);
      var loop := ScanPages(started.value.pages, 0, None).effects;
      assert Scan(started, None).effects == loop + [Cancel];
    }
  }
}
